=== FILE: README.md ===
# Code-review form: a Dafny model

A model of the core of a desktop code-review form. The user fills in a file
name, a controller name and a file type. They then keep a list of numbered
review *segments*. Each segment has a "line from" and "line to" range, a free
text description and a category (note, possible problem, error). Segments can
be added and deleted, and the survivors are renumbered. On completion the form
is gathered into plain records (`app_data`, `segments_data`). Those records are
laid out as the list of PDF elements the report is built from. A separate
settings window lists the languages on offer, loads a language's settings file
and switches the configured language.

Modules, following the program's structure:

| module | what it holds |
|---|---|
| `Wrappers` | `Option` and `Result` |
| `Seqs` | mapping a function over a sequence, and facts about concatenating and slicing sequences, shared by the proofs |
| `Text` | Python's `str.strip` (with `str.isspace`'s whitespace set), `str(n)`, `str.endswith`, `s.split(sep)[0]`, POSIX `os.path.join` |
| `Dates` | `strftime("%Y-%m-%d")` and its inverse parser |
| `Localization` | the language-file entries the core reads |
| `Segments` | the live segment list: `add_segment`, `delete_segment`, `update_segment_numbers`, the delete button |
| `Snapshot` | the gathering step of `generate_pdf_from_form` |
| `Layout` | the element list of `generate_pdf`, and the whole form-to-report pipeline |
| `Settings` | `get_available_languages`, the path of `load_settings_language`, `change_language` |

Modelling choices:
- A segment's widgets are reduced to the texts they hold (`Segments.Entry`).
- The index each delete button's closure captured is kept as a field, `deleteIndex`.
- A press of the as-written delete button returns the list it leaves, the position of the listed entry whose frame it destroyed, and the error it raised (`Segments.Pressed`).
- A Tk text box returns its contents plus a final newline, so the description read is `text + "\n"`.
- The clock (`datetime.now()`) becomes a `today: Date` parameter.
- The directory listing (`os.listdir("lang")`) becomes a `listing` parameter.
- The settings dictionary becomes a `map<string, Setting>`.
- Paragraph styles are reduced to their names.
- Spacer heights are in hundredths of an inch: 30, 10, 5 and 20.
- The separator drawing becomes `Rule(500)`.

## Model

| member | source | states |
|---|---|---|
| Text.Strip | main.py:286 | the stripped description has no whitespace at either end and is no longer than the typed text |
| Text.StripIsTrim | main.py:286 | what strip removes is a whitespace-only prefix and a whitespace-only suffix; the result is the slice between them |
| Text.StripParts | main.py:286 | the typed text is the stripped text with whitespace put back on either side |
| Text.StripOfPadded | main.py:286 | stripping whitespace + trimmed core + whitespace gives back exactly the core |
| Text.StripIdempotent | main.py:286 | stripping an already stripped description changes nothing |
| Text.StripTrailingNewline | main.py:286 | the newline the text box appends never reaches the report |
| Text.StripExample | main.py:286 | " off-by-one" typed in a text box is reported as "off-by-one" |
| Text.NatToString | main.py:188 | a segment number is rendered as a non-empty digit string with no leading zero |
| Text.NatToStringValue | main.py:188 | reading a rendered segment number back gives the number |
| Text.NatToStringInjective | main.py:177 | different numbers render differently |
| Text.ZeroPad | main.py:277 | a zero-padded field has the requested width and still reads as the same number |
| Text.SplitFirst | settings.py:39 | `name.split("_")[0]` is the prefix before the first `_`, or the whole name if it has none |
| Text.PathJoin | settings.py:25 | `os.path.join(a, b)`: `b` when `b` is absolute; `a + b` when `a` is empty or ends in `/`; otherwise `a` and `b` joined by one `/` |
| Dates.FormatIso | main.py:277 | the date line is 10 characters, `YYYY-MM-DD`, and each field reads as the year, month and day |
| Dates.ParseFormatIso | main.py:277 | the printed date parses back to the date it came from |
| Dates.FormatIsoInjective | main.py:277 | two different days never print the same date line |
| Localization.MenuOptions | main.py:217-218 | the category drop-down has three options, the first being "note" |
| Segments.Relabel | main.py:176-177 | relabelling keeps every segment's content and gives position `k` the label of its position |
| Segments.UpdateSegmentNumbers | main.py:174-178 | after renumbering the labels read "title 1", "title 2", ... in list order, and nothing else changes |
| Segments.UpdateSegmentNumbersFixpoint | main.py:174-178 | renumbering a list that is already numbered leaves it unchanged |
| Segments.SegmentLabelInjective | main.py:177 | two positions never get the same label |
| Segments.NumberedLabelsDistinct | main.py:174-178 | in a numbered list no two segments show the same label |
| Segments.AddSegment | main.py:181-228 | one blank segment is appended with the first category and the next number; the old segments keep their content; the list stays numbered |
| Segments.AddSegmentKeepsPrefix | main.py:226-227 | on a numbered list, adding a segment leaves every existing segment exactly as it was |
| Segments.AddSegmentKeepsIndicesCurrent | main.py:183-227 | while nothing is deleted, each delete button's captured index is its segment's position |
| Segments.InitialSegments | main.py:394-395 | the form opens with two blank segments numbered 1 and 2 |
| Segments.PopAt | main.py:169 | `list.pop(i)` removes exactly element `i` and shifts the later ones down |
| Segments.DeleteSegment | main.py:166-171 | deletion fails with IndexError exactly when the index is past the end; otherwise one fewer segment, the rest in order and renumbered |
| Segments.DeleteOnlyThenAdd | main.py:166-228 | deleting the only segment empties the list, and the next add is labelled 1 again |
| Segments.PressDeleteAsWritten | main.py:166-223 | the button destroys its own frame and pops its captured index; it succeeds exactly when that index is its position; otherwise the pop raises IndexError and the list is unchanged, or another entry is popped and renumbering fails on the destroyed label; either way the destroyed entry stays listed (finding) |
| Segments.PressDeleteAsWrittenAgreesWhileCurrent | main.py:223 | before any deletion, the captured index deletes the button's own segment cleanly |
| Segments.PressDeleteAsWrittenAfterDeletion | main.py:166-223 | after an earlier deletion one button fails with IndexError and the other pops the wrong segment and fails renumbering; both leave their destroyed entry listed (finding) |
| Segments.PressDelete | main.py:166-171 | a delete button always removes its own segment; the rest stay in order and are renumbered |
| Segments.RenumberUntil | main.py:174-178 | renumbering that stops at position `q` (on a destroyed label) has renumbered the labels before `q` and left `q` and the rest as they were |
| Segments.PressDeleteAsWrittenUnnumbered | main.py:166-223 | a stale press that pops another segment leaves labels out of sequence whenever a mislabelled entry remains after the destroyed one |
| Segments.Apply | main.py:166-228 | with the corrected delete button: an add keeps every segment's content and appends one blank segment whose category is the language's note option; a delete of an existing position keeps the segments before it, shifts the later ones down and drops only that one; a delete of a missing position changes nothing; the list stays numbered |
| Segments.Run | main.py:166-398 | with the corrected delete button, every session starting from the two initial segments leaves the labels running 1..n in list order |
| Segments.RunNumbered | main.py:166-228 | with the corrected delete button (`PressDelete`), after any session of adds and deletes the list holds 2 + adds - deletes segments, counting only deletes that found a segment |
| Snapshot.InitialForm | main.py:129-151 | the form opens with empty file and controller names, file type "Python", and two blank numbered segments of category "note" |
| Snapshot.TextboxGet | main.py:286 | reading a text box gives the typed text followed by one newline |
| Snapshot.OrElse | main.py:285 | `a or b` on strings: `a` unless it is empty |
| Snapshot.GatherAppData | main.py:270-280 | the header record carries the labels and the form's fields, and its date parses back to today |
| Snapshot.GatherSegment | main.py:283-298 | an empty "line to" falls back to "line from"; the description is trimmed; category and labels are copied |
| Snapshot.GatherSegmentSettled | main.py:285-286 | gathering a segment whose fallback and trim are already applied gives the same record |
| Snapshot.GatherSegments | main.py:282-300 | one record per segment, in list order |
| Layout.SegmentBlocks | main.py:362-387 | the segment loop emits ten elements per segment |
| Layout.SegmentBlocksAt | main.py:362-387 | block `k` of the loop's output is segment `k`'s ten elements, headed by the number `k+1` |
| Layout.Layout | main.py:346-387 | the report has 7 + 10n elements and opens with the title and header block |
| Layout.LayoutBlocks | main.py:346-387 | after the header, every segment's block follows in list order |
| Layout.LayoutSnoc | main.py:362-387 | one more segment adds exactly its block at the end of the report |
| Layout.LayoutSegment | main.py:362-387 | element `j` of segment `k`'s block is at position 7 + 10k + j |
| Layout.SegmentBlockHeading | main.py:364-387 | within a block only the first element is a heading |
| Layout.HeadingsAreSegmentTitles | main.py:350-387 | an element is in heading style exactly at positions 7, 17, 27, ... |
| Layout.GeneratePdf | main.py:346-387 | the appends, one element at a time in the source's order, build exactly the element list `Layout` describes |
| Layout.LayoutHeader | main.py:350-359 | the report opens with the title, a spacer, the file name, controller, date and file type lines, and a spacer |
| Layout.Report | main.py:267-306 | `generate_pdf_from_form` gathers the form, stamps today's date and lays out a report of 7 + 10 elements per segment |
| Layout.ReportShape | main.py:267-359 | the report has 7 + 10n elements: the title, the four header lines (with today as YYYY-MM-DD), and two spacers |
| Layout.ReportSegment | main.py:282-387 | segment `k`'s heading equals its on-screen label; its paragraphs hold the range (with the "line to" fallback), the trimmed description and the category |
| Dates.FormatIsoExample | main.py:277 | 1 January 2024 prints as "2024-01-01" |
| Layout.ReportExampleHeader | main.py:267-359 | a one-segment form has a 17-element report with the date line "2024-01-01" |
| Layout.ReportExampleSegment | main.py:282-387 | that report's segment reads "title 1", range "10 - 10", description "off-by-one", category "Error" |
| Settings.LanguageCode | settings.py:39 | the code offered for a file name is its prefix before the first `_`, which contains no `_` |
| Settings.AvailableLanguages | settings.py:36-41 | every `*_settings.json` file offers its code; every code offered comes from such a file; other files are ignored |
| Settings.AvailableLanguagesAppend | settings.py:39 | codes are offered in listing order |
| Settings.SettingsFileName | settings.py:25 | the file name for a code is a `*_settings.json` name starting with the code and then `_` |
| Settings.SettingsLanguagePath | settings.py:25 | the settings file of a code is `lang/<code>_settings.json` |
| Settings.SettingsFileRoundTrip | settings.py:25-39 | a code without `_` is offered back exactly from its own settings file |
| Settings.UnderscoreCodeNotLoadable | settings.py:25-39 | `pt_BR_settings.json` is offered as "pt", whose settings file does not exist (finding) |
| Settings.SettingsCode | settings.py:39 | a settings file's code with the suffix dropped names that file back |
| Settings.LoadableLanguages | settings.py:36-41 | every offered code's settings file is in the listing, and every settings file is offered |
| Settings.LoadableLanguagesRoundTrip | settings.py:25-39 | every code, underscores included, is offered back exactly from its own settings file |
| Settings.AvailableMatchesLoadable | settings.py:36-41 | when no code contains `_`, the original discovery and the corrected one agree |
| Settings.ChangeLanguage | settings.py:57-60 | `"language"` is set to the new code; every other setting is kept |
| Settings.ChangeLanguageLastWins | settings.py:59 | of two successive language changes only the last one matters |

## Left out

- The windows and widgets (customtkinter), their placement, colours and fonts. Only the texts the widgets hold are modelled.
- Rendering the elements to PDF bytes. ReportLab's styles are reduced to their names, and fonts, colours and page size are not modelled.
- Reading and writing files: the JSON settings and language files, `output.pdf` and the log. The language record, the directory listing and the date come in as parameters.
- Logging, the help and information windows, e-mailing the log, opening a browser, the message boxes of `save_settings`.
- A language file missing a key: the program fails with `KeyError`. The model's `Language` record always has every entry.
- Saving the settings after `change_language`. `save_settings` is I/O, and it reports its own errors in a message box.
- Dates.FormatIso: pads every year to four digits, as Python documents for `%Y`; the C library on some platforms does not pad years below 1000.
- Segments.PressDeleteAsWritten: models one press. It records which listed entry's frame is destroyed, but the list entries carry no alive flag. So it does not model that every later renumbering, and every later `generate_pdf_from_form` (whose `get()` calls reach the dead widgets), fails as well. It also does not model that a segment popped in place of the pressed one stays on screen with a working button.
- Segments.RunNumbered: sessions use the corrected delete button, so numbering and the count hold for them only. Pressing the as-written button can leave the labels out of sequence (`Segments.PressDeleteAsWrittenUnnumbered`). A press whose pop fails leaves the count unchanged though a segment was found. `Run` does not model sessions through the as-written button, because each such press leaves a destroyed entry whose later effects are not modelled (see the line above).
- Spacer width: every spacer is 1 point wide, and only its height is modelled.

## Findings

| source | as written | input that shows it | evidently intended | confidence | as-written member | corrected member |
|---|---|---|---|---|---|---|
| main.py:223 | the delete button captures `segment_index = len(segments)` when its segment is added and later pops that index | start with the two initial segments and add a third; delete the first; then press the delete button of the segment now at position 1 (the old third) | each delete button removes its own segment, at its current position | high; not executed | Segments.PressDeleteAsWrittenAfterDeletion | Segments.PressDelete |
| settings.py:39 | the language code is `f.split("_")[0]`, while settings.py:25 opens `f"{code}_settings.json"` | a listing with `pt_BR_settings.json` offers "pt", and `lang/pt_settings.json` does not exist | the code is the file name without the `_settings.json` suffix | medium; not executed | Settings.UnderscoreCodeNotLoadable | Settings.LoadableLanguages |

With that input, the button of the segment now at position 1 destroys its own frame and then pops index 2 of a two-element list, which fails with IndexError; its dead entry stays in the list. The button of the segment now at position 0 destroys its own frame and pops position 1, removing the other segment from the list though its widgets stay on screen. The renumbering that follows reaches its own destroyed label and fails, and the dead entry stays in the list. `Segments.Run`, the model of a whole session, uses the corrected button.

=== FILE: dates.dfy ===
/**
 Calendar dates as Python's `datetime` holds them, and the
 `strftime("%Y-%m-%d")` rendering the report prints as its date line.
 */
module Dates {
  import opened Text
  import opened Wrappers

  datatype Date = Date(year: nat, month: nat, day: nat)

  predicate IsLeapYear(year: nat) {
    year % 4 == 0 && (year % 100 != 0 || year % 400 == 0)
  }

  function DaysInMonth(year: nat, month: nat): nat
    requires 1 <= month <= 12
  {
    if month == 2 then (if IsLeapYear(year) then 29 else 28)
    else if month == 4 || month == 6 || month == 9 || month == 11 then 30
    else 31
  }

  /** The dates a `datetime` can hold: years 1 to 9999 of the proleptic Gregorian calendar. */
  predicate Valid(d: Date) {
    && 1 <= d.year <= 9999
    && 1 <= d.month <= 12
    && 1 <= d.day <= DaysInMonth(d.year, d.month)
  }

  /** `d.strftime("%Y-%m-%d")`: four-digit year, two-digit month and day, dash separated. */
  function FormatIso(d: Date): (r: string)
    requires Valid(d)
    ensures |r| == 10 && r[4] == '-' && r[7] == '-'
    ensures AllDigits(r[..4]) && AllDigits(r[5..7]) && AllDigits(r[8..])
    ensures DigitsValue(r[..4]) == d.year
    ensures DigitsValue(r[5..7]) == d.month
    ensures DigitsValue(r[8..]) == d.day
  {
    NatToStringLength(d.year, 4);
    NatToStringLength(d.month, 2);
    NatToStringLength(d.day, 2);
    var y, m, dd := ZeroPad(d.year, 4), ZeroPad(d.month, 2), ZeroPad(d.day, 2);
    var r := y + "-" + m + "-" + dd;
    assert r[..4] == y && r[5..7] == m && r[8..] == dd;
    r
  }

  /** Reads a `YYYY-MM-DD` string back into a date; None for anything else. */
  function ParseIso(s: string): (r: Option<Date>)
    ensures r.Some? ==> Valid(r.value)
  {
    if |s| == 10 && s[4] == '-' && s[7] == '-'
       && AllDigits(s[..4]) && AllDigits(s[5..7]) && AllDigits(s[8..])
    then
      var d := Date(DigitsValue(s[..4]), DigitsValue(s[5..7]), DigitsValue(s[8..]));
      if Valid(d) then Some(d) else None
    else None
  }

  /** The rendered date reads back as the same date. */
  lemma ParseFormatIso(d: Date)
    requires Valid(d)
    ensures ParseIso(FormatIso(d)) == Some(d)
  {
  }

  /** Two different dates never print the same date line. */
  lemma FormatIsoInjective(d: Date, e: Date)
    requires Valid(d) && Valid(e)
    ensures FormatIso(d) == FormatIso(e) ==> d == e
  {
    ParseFormatIso(d);
    ParseFormatIso(e);
  }

  /** The first day of 2024 prints zero-padded. */
  lemma FormatIsoExample()
    ensures FormatIso(Date(2024, 1, 1)) == "2024-01-01"
  {
    YearExample();
    MonthExample();
  }

  /** 2024 needs no padding to four digits. */
  lemma YearExample()
    ensures ZeroPad(2024, 4) == "2024"
  {
    assert NatToString(20) == "20" by {
      assert NatToString(2) == "2";
    }
    assert NatToString(2024) == "2024" by {
      assert NatToString(202) == "202";
    }
  }

  /** Month 1 is padded to "01". */
  lemma MonthExample()
    ensures ZeroPad(1, 2) == "01"
  {
    assert NatToString(1) == "1";
    assert Zeros(1) == "0";
  }
}

=== FILE: layout.dfy ===
/**
 The element list `generate_pdf` hands to the PDF builder, and the whole
 form-to-report pipeline of `generate_pdf_from_form`. Rendering the elements
 into PDF bytes is the PDF library's business and is not modelled.
 */
module Layout {
  import opened Seqs
  import opened Text
  import opened Dates
  import opened Localization
  import opened Segments
  import opened Snapshot

  /** The three paragraph styles: centred title, segment heading, body text. */
  datatype Style = TitleStyle | HeaderStyle | NormalStyle

  /**
   A flowable of the report: a paragraph of marked-up text, vertical space
   in hundredths of an inch, or a horizontal rule `width` points long.
   */
  datatype Element = Para(text: string, style: Style) | Spacer(height: nat) | Rule(width: nat)

  const HeaderGap: nat := 30  // 0.3 inch after the title and after the header lines
  const TitleGap: nat := 10   // 0.1 inch after a segment heading
  const LineGap: nat := 5     // 0.05 inch after the line range and after the description
  const RuleGap: nat := 20    // 0.2 inch on both sides of the separator
  const RuleWidth: nat := 500 // length of the separator line

  /** A bold "label:" followed by the value. */
  function Field(key: string, value: string): string {
    "<strong>" + key + ":</strong> " + value
  }

  /** "<from label> <from> - <to label> <to>": a segment's line range. */
  function RangeText(fromLabel: string, from: string, toLabel: string, to: string): string {
    fromLabel + " " + from + " - " + toLabel + " " + to
  }

  /** The line-range paragraph of a segment record. */
  function LineInfo(d: SegmentData): string {
    RangeText(d.lineFromLabel, d.lineFrom, d.lineToLabel, d.lineTo)
  }

  /** Title, then file name, controller, date and file type, framed by spacers. */
  function HeaderBlock(app: AppData): seq<Element> {
    [ Para(app.appTitle, TitleStyle),
      Spacer(HeaderGap),
      Para(Field(app.fileNameLabel, app.fileName), NormalStyle),
      Para(Field(app.controllerNameLabel, app.controllerName), NormalStyle),
      Para(Field(app.currentDateLabel, app.currentDate), NormalStyle),
      Para(Field(app.fileTypeLabel, app.fileType), NormalStyle),
      Spacer(HeaderGap) ]
  }

  /** The ten elements of the segment at 0-based position `k`. */
  function SegmentBlock(d: SegmentData, k: nat): seq<Element> {
    [ Para(SegmentLabel(d.segmentTitleMain, k), HeaderStyle),
      Spacer(TitleGap),
      Para(LineInfo(d), NormalStyle),
      Spacer(LineGap),
      Para(Field(d.descriptionLabel, d.description), NormalStyle),
      Spacer(LineGap),
      Para(Field(d.menuLabel, d.menuOption), NormalStyle),
      Spacer(RuleGap),
      Rule(RuleWidth),
      Spacer(RuleGap) ]
  }

  /** The blocks of all segments, each numbered by its position. */
  function SegmentBlocks(data: seq<SegmentData>): (r: seq<Element>)
    ensures |r| == 10 * |data|
  {
    if data == [] then []
    else
      var n := |data| - 1;
      SegmentBlocks(data[..n]) + SegmentBlock(data[n], n)
  }

  /** Block `k` of the segment blocks is segment `k`'s block, numbered `k + 1`. */
  lemma {:induction false} SegmentBlocksAt(data: seq<SegmentData>, k: nat)
    requires k < |data|
    ensures SegmentBlocks(data)[10 * k..10 * k + 10] == SegmentBlock(data[k], k)
    decreases |data|
  {
    var n := |data| - 1;
    if k < n {
      SegmentBlocksAt(data[..n], k);
      SegmentBlocksKeepsEarlier(data, k);
    } else {
      SegmentBlocksLast(data);
    }
  }

  /** The blocks of a list begin with the blocks of the list without its last segment. */
  lemma SegmentBlocksKeepsEarlier(data: seq<SegmentData>, k: nat)
    requires k < |data| - 1
    ensures SegmentBlocks(data)[10 * k..10 * k + 10] == SegmentBlocks(data[..|data| - 1])[10 * k..10 * k + 10]
    ensures data[..|data| - 1][k] == data[k]
  {
    var n := |data| - 1;
    SliceOfPrefix(SegmentBlocks(data[..n]), SegmentBlock(data[n], n), 10 * k, 10 * k + 10);
  }

  /** The blocks of a list end with its last segment's block. */
  lemma SegmentBlocksLast(data: seq<SegmentData>)
    requires |data| > 0
    ensures SegmentBlocks(data)[10 * (|data| - 1)..10 * |data|] == SegmentBlock(data[|data| - 1], |data| - 1)
  {
    var n := |data| - 1;
    DropPrefix(SegmentBlocks(data[..n]), SegmentBlock(data[n], n));
  }

  /**
   The report's elements: the seven header elements, then ten for every
   segment in list order.
   */
  function Layout(app: AppData, data: seq<SegmentData>): (r: seq<Element>)
    ensures |r| == 7 + 10 * |data|
    ensures r[..7] == HeaderBlock(app)
  {
    var r := HeaderBlock(app) + SegmentBlocks(data);
    assert r[..7] == HeaderBlock(app);
    r
  }

  /** After the header, the report holds every segment's block, in list order. */
  lemma LayoutBlocks(app: AppData, data: seq<SegmentData>)
    ensures forall k :: 0 <= k < |data| ==> Layout(app, data)[7 + 10 * k..17 + 10 * k] == SegmentBlock(data[k], k)
  {
    var blocks := SegmentBlocks(data);
    forall k | 0 <= k < |data|
      ensures Layout(app, data)[7 + 10 * k..17 + 10 * k] == SegmentBlock(data[k], k)
    {
      SegmentBlocksAt(data, k);
      assert Layout(app, data)[7 + 10 * k..17 + 10 * k] == blocks[10 * k..10 * k + 10];
    }
  }

  /** Element `j` of segment `k`'s block sits at position 7 + 10k + j of the report. */
  lemma LayoutSegment(app: AppData, data: seq<SegmentData>, k: nat)
    requires k < |data|
    ensures forall j :: 0 <= j < 10 ==> Layout(app, data)[7 + 10 * k + j] == SegmentBlock(data[k], k)[j]
  {
    var r, i := Layout(app, data), 7 + 10 * k;
    SegmentBlocksAt(data, k);
    var b := r[i..i + 10];
    assert b == SegmentBlocks(data)[10 * k..10 * k + 10];
    assert forall j :: 0 <= j < 10 ==> r[i + j] == b[j];
  }

  /** Only the first element of a segment block is in heading style. */
  lemma SegmentBlockHeading(d: SegmentData, k: nat, m: nat)
    requires m < 10
    ensures SegmentBlock(d, k)[m].Para? && SegmentBlock(d, k)[m].style == HeaderStyle <==> m == 0
  {
  }

  /** Exactly the segment headings are in heading style: positions 7, 17, 27, ... */
  lemma {:induction false} HeadingsAreSegmentTitles(app: AppData, data: seq<SegmentData>, j: nat)
    requires j < |Layout(app, data)|
    ensures Layout(app, data)[j].Para? && Layout(app, data)[j].style == HeaderStyle
            <==> j >= 7 && (j - 7) % 10 == 0
  {
    if j >= 7 {
      var k, m := (j - 7) / 10, (j - 7) % 10;
      assert j == 7 + 10 * k + m && k < |data|;
      LayoutElement(app, data, k, m);
      SegmentBlockHeading(data[k], k, m);
    } else {
      LayoutHeaderElement(app, data, j);
    }
  }

  /** Element `m` of segment `k`'s block, read from the report. */
  lemma LayoutElement(app: AppData, data: seq<SegmentData>, k: nat, m: nat)
    requires k < |data| && m < 10
    ensures Layout(app, data)[7 + 10 * k + m] == SegmentBlock(data[k], k)[m]
  {
    LayoutSegment(app, data, k);
  }

  /** Element `j` of the header block, read from the report. */
  lemma LayoutHeaderElement(app: AppData, data: seq<SegmentData>, j: nat)
    requires j < 7
    ensures Layout(app, data)[j] == HeaderBlock(app)[j]
  {
    assert Layout(app, data)[..7] == HeaderBlock(app);
  }

  /** `generate_pdf`: builds the element list one append at a time, in main.py's order. */
  method GeneratePdf(app: AppData, data: seq<SegmentData>) returns (elements: seq<Element>)
    ensures elements == Layout(app, data)
  {
    elements := [];
    elements := elements + [Para(app.appTitle, TitleStyle)];
    elements := elements + [Spacer(HeaderGap)];
    elements := elements + [Para(Field(app.fileNameLabel, app.fileName), NormalStyle)];
    elements := elements + [Para(Field(app.controllerNameLabel, app.controllerName), NormalStyle)];
    elements := elements + [Para(Field(app.currentDateLabel, app.currentDate), NormalStyle)];
    elements := elements + [Para(Field(app.fileTypeLabel, app.fileType), NormalStyle)];
    elements := elements + [Spacer(HeaderGap)];
    assert elements == HeaderBlock(app);
    assert data[..0] == [];
    var index := 0;
    while index < |data|
      invariant 0 <= index <= |data|
      invariant elements == Layout(app, data[..index])
    {
      var segment := data[index];
      var block := [Para(SegmentLabel(segment.segmentTitleMain, index), HeaderStyle)];
      block := block + [Spacer(TitleGap)];
      block := block + [Para(LineInfo(segment), NormalStyle)];
      block := block + [Spacer(LineGap)];
      block := block + [Para(Field(segment.descriptionLabel, segment.description), NormalStyle)];
      block := block + [Spacer(LineGap)];
      block := block + [Para(Field(segment.menuLabel, segment.menuOption), NormalStyle)];
      block := block + [Spacer(RuleGap)];
      block := block + [Rule(RuleWidth)];
      block := block + [Spacer(RuleGap)];
      assert block == SegmentBlock(segment, index);
      elements := elements + block;
      LayoutSnoc(app, data, index);
      index := index + 1;
    }
    assert data[..index] == data;
  }

  /** The report of one more segment is the old report followed by that segment's block. */
  lemma LayoutSnoc(app: AppData, data: seq<SegmentData>, n: nat)
    requires n < |data|
    ensures Layout(app, data[..n + 1]) == Layout(app, data[..n]) + SegmentBlock(data[n], n)
  {
    var h, a, b := HeaderBlock(app), SegmentBlocks(data[..n]), SegmentBlock(data[n], n);
    assert data[..n + 1][..n] == data[..n];
    assert SegmentBlocks(data[..n + 1]) == a + b;
    assert h + (a + b) == (h + a) + b;
  }

  /** `generate_pdf_from_form`: gather the form, stamp the date, lay out the report. */
  function Report(form: Form, lang: Language, today: Date): (r: seq<Element>)
    requires Valid(today)
    ensures |r| == 7 + 10 * |form.segments|
  {
    Layout(GatherAppData(form, lang, today), GatherSegments(form.segments, lang))
  }

  /**
   The report opens with the title and the four header lines (file name,
   controller, date as YYYY-MM-DD, file type), then has ten elements per
   segment; with no segments only the header block remains.
   */
  lemma ReportShape(form: Form, lang: Language, today: Date)
    requires Valid(today)
    ensures var r := Report(form, lang, today);
            && |r| == 7 + 10 * |form.segments|
            && r[0] == Para(lang.appTitle, TitleStyle)
            && r[2] == Para(Field(lang.fileName, form.fileName), NormalStyle)
            && r[3] == Para(Field(lang.controllerName, form.controllerName), NormalStyle)
            && r[4] == Para(Field(lang.currentDate, FormatIso(today)), NormalStyle)
            && r[5] == Para(Field(lang.fileType, form.fileType), NormalStyle)
            && r[1] == r[6] == Spacer(HeaderGap)
            && (form.segments == [] ==> r == r[..7])
  {
    var app, data := GatherAppData(form, lang, today), GatherSegments(form.segments, lang);
    var r := Report(form, lang, today);
    assert r == Layout(app, data);
    LayoutHeader(app, data);
    assert form.segments == [] ==> r == r[..7] by {
      if form.segments == [] {
        assert |r| == 7;
      }
    }
  }

  /** The seven header elements of a report, field by field. */
  lemma LayoutHeader(app: AppData, data: seq<SegmentData>)
    ensures var r := Layout(app, data);
            && r[0] == Para(app.appTitle, TitleStyle)
            && r[1] == Spacer(HeaderGap)
            && r[2] == Para(Field(app.fileNameLabel, app.fileName), NormalStyle)
            && r[3] == Para(Field(app.controllerNameLabel, app.controllerName), NormalStyle)
            && r[4] == Para(Field(app.currentDateLabel, app.currentDate), NormalStyle)
            && r[5] == Para(Field(app.fileTypeLabel, app.fileType), NormalStyle)
            && r[6] == Spacer(HeaderGap)
  {
    LayoutHeaderElement(app, data, 0);
    LayoutHeaderElement(app, data, 1);
    LayoutHeaderElement(app, data, 2);
    LayoutHeaderElement(app, data, 3);
    LayoutHeaderElement(app, data, 4);
    LayoutHeaderElement(app, data, 5);
    LayoutHeaderElement(app, data, 6);
  }

  /**
   The report's segment headings agree with the labels the form shows, and
   each segment's paragraphs carry its range (with "line to" defaulted to
   "line from"), its trimmed description and its category.
   */
  lemma ReportSegment(form: Form, lang: Language, today: Date, k: nat)
    requires Valid(today) && k < |form.segments|
    ensures var r, e, i := Report(form, lang, today), form.segments[k], 7 + 10 * k;
            && |r| == 7 + 10 * |form.segments|
            && r[i] == Para(SegmentLabel(lang.segmentTitleMain, k), HeaderStyle)
            && (Numbered(form.segments, lang.segmentTitleMain) ==> r[i].text == e.numberLabel)
            && r[i + 2] == Para(RangeText(lang.lineFrom, e.lineFrom, lang.lineTo,
                                          if e.lineTo == "" then e.lineFrom else e.lineTo), NormalStyle)
            && r[i + 4] == Para(Field(lang.description, Strip(e.description)), NormalStyle)
            && r[i + 6] == Para(Field(lang.menuLabel, e.category), NormalStyle)
  {
    var app, data := GatherAppData(form, lang, today), GatherSegments(form.segments, lang);
    LayoutSegment(app, data, k);
    SegmentBlockParas(data[k], k);
    GatheredFields(form.segments[k], lang);
  }

  /** The four paragraphs of a segment block, in terms of its record. */
  lemma SegmentBlockParas(d: SegmentData, k: nat)
    ensures var b := SegmentBlock(d, k);
            && b[0] == Para(SegmentLabel(d.segmentTitleMain, k), HeaderStyle)
            && b[2] == Para(RangeText(d.lineFromLabel, d.lineFrom, d.lineToLabel, d.lineTo), NormalStyle)
            && b[4] == Para(Field(d.descriptionLabel, d.description), NormalStyle)
            && b[6] == Para(Field(d.menuLabel, d.menuOption), NormalStyle)
  {
  }

  /** The texts of a gathered segment, in terms of the form entry and the language. */
  lemma GatheredFields(e: Entry, lang: Language)
    ensures var d := GatherSegment(e, lang);
            && RangeText(d.lineFromLabel, d.lineFrom, d.lineToLabel, d.lineTo)
               == RangeText(lang.lineFrom, e.lineFrom, lang.lineTo, if e.lineTo == "" then e.lineFrom else e.lineTo)
            && Field(d.descriptionLabel, d.description) == Field(lang.description, Strip(e.description))
            && Field(d.menuLabel, d.menuOption) == Field(lang.menuLabel, e.category)
            && d.segmentTitleMain == lang.segmentTitleMain
  {
  }

  /**
   A worked report: file "report.py" checked by "Jane" on 2024-01-01, one
   segment for lines "10" to "" described as " off-by-one\n" with category "Error".
   */
  function ExampleForm(lang: Language): Form {
    Form("report.py", "Jane", "Python",
         [Entry(SegmentLabel(lang.segmentTitleMain, 0), "10", "", " off-by-one\n", "Error", 0)])
  }

  /** The worked report's size and date line. */
  lemma ReportExampleHeader(lang: Language)
    ensures var r := Report(ExampleForm(lang), lang, Date(2024, 1, 1));
            && |r| == 17
            && r[4] == Para(Field(lang.currentDate, "2024-01-01"), NormalStyle)
  {
    FormatIsoExample();
    ReportShape(ExampleForm(lang), lang, Date(2024, 1, 1));
  }

  /** The worked report's segment: heading 1, range "10 - 10", trimmed description, category. */
  lemma ReportExampleSegment(lang: Language)
    ensures var r := Report(ExampleForm(lang), lang, Date(2024, 1, 1));
            && r[7] == Para(lang.segmentTitleMain + " " + "1", HeaderStyle)
            && r[9] == Para(RangeText(lang.lineFrom, "10", lang.lineTo, "10"), NormalStyle)
            && r[11] == Para(Field(lang.description, "off-by-one"), NormalStyle)
            && r[13] == Para(Field(lang.menuLabel, "Error"), NormalStyle)
  {
    var form, today := ExampleForm(lang), Date(2024, 1, 1);
    var r, e := Report(form, lang, today), form.segments[0];
    ReportSegment(form, lang, today, 0);
    assert r[7] == Para(lang.segmentTitleMain + " " + "1", HeaderStyle) by {
      SegmentLabelFirst(lang.segmentTitleMain);
    }
    assert r[11] == Para(Field(lang.description, "off-by-one"), NormalStyle) by {
      StripExample();
    }
  }
}

=== FILE: localization.dfy ===
/**
 The entries of a `lang/<code>.json` language file that the form and the
 report read. Every user-visible label of the core comes from here.
 */
module Localization {

  datatype Language = Language(
    appTitle: string,                  // "app_title"
    fileName: string,                  // "file_name"
    controllerName: string,            // "controller_name"
    currentDate: string,               // "current_date"
    fileType: string,                  // "file_type"
    segmentTitleMain: string,          // "segment_title_main"
    lineFrom: string,                  // "line_from"
    lineTo: string,                    // "line_to"
    description: string,               // "description"
    menuLabel: string,                 // "menu_label"
    menuOptionNote: string,            // "menu_option_note"
    menuOptionPossibleProblem: string, // "menu_option_possible_problem"
    menuOptionError: string            // "menu_option_error"
  )

  /** The category drop-down of a segment, in display order. */
  function MenuOptions(lang: Language): (r: seq<string>)
    ensures |r| == 3
    ensures r[0] == lang.menuOptionNote
  {
    [lang.menuOptionNote, lang.menuOptionPossibleProblem, lang.menuOptionError]
  }

  /** The file-type drop-down of the header; these names are not localized. */
  const FileTypeOptions: seq<string> := ["Python", "JavaScript", "HTML", "CSS", "Other"]
}

=== FILE: segments.dfy ===
/**
 The live segment list of the review form (`segments` in main.py): adding a
 segment, deleting one through its delete button, and renumbering the
 "<segment_title_main> n" labels. Widgets are reduced to the texts they hold.
 */
module Segments {
  import opened Seqs
  import opened Text
  import opened Wrappers
  import opened Localization

  /** One segment of the form as its widgets hold it. */
  datatype Entry = Entry(
    numberLabel: string, // text of the number label
    lineFrom: string,    // "line from" entry
    lineTo: string,      // "line to" entry
    description: string, // description text box, without Tk's trailing newline
    category: string,    // selected category option
    deleteIndex: nat     // list index the delete button captured when the segment was added
  )

  /** The label of the segment at 0-based position `k`: "<title> <k+1>". */
  function SegmentLabel(title: string, k: nat): string {
    title + " " + NatToString(k + 1)
  }

  /** Different positions get different labels. */
  lemma SegmentLabelInjective(title: string, j: nat, k: nat)
    ensures SegmentLabel(title, j) == SegmentLabel(title, k) ==> j == k
  {
    if SegmentLabel(title, j) == SegmentLabel(title, k) {
      DropPrefix(title + " ", NatToString(j + 1));
      DropPrefix(title + " ", NatToString(k + 1));
      NatToStringInjective(j + 1, k + 1);
    }
  }

  /** The first segment is labelled "<title> 1". */
  lemma SegmentLabelFirst(title: string)
    ensures SegmentLabel(title, 0) == title + " " + "1"
  {
    assert NatToString(1) == "1";
  }

  /** `a` and `b` are the same segment, possibly showing different labels. */
  predicate SameExceptLabel(a: Entry, b: Entry) {
    a.(numberLabel := b.numberLabel) == b
  }

  /** Labels run "<title> 1", "<title> 2", ... in list order. */
  predicate Numbered(segs: seq<Entry>, title: string) {
    forall k :: 0 <= k < |segs| ==> segs[k].numberLabel == SegmentLabel(title, k)
  }

  /** The index each delete button captured is still the segment's position. */
  predicate IndicesCurrent(segs: seq<Entry>) {
    forall k :: 0 <= k < |segs| ==> segs[k].deleteIndex == k
  }

  /** Relabels `segs` as if it started at position `first` of the list. */
  function Relabel(segs: seq<Entry>, title: string, first: nat): (r: seq<Entry>)
    ensures |r| == |segs|
    ensures forall k :: 0 <= k < |segs| ==> r[k] == segs[k].(numberLabel := SegmentLabel(title, first + k))
  {
    if segs == [] then []
    else [segs[0].(numberLabel := SegmentLabel(title, first))] + Relabel(segs[1..], title, first + 1)
  }

  /** `update_segment_numbers`: every segment keeps its content and shows its position. */
  function UpdateSegmentNumbers(segs: seq<Entry>, title: string): (r: seq<Entry>)
    ensures |r| == |segs|
    ensures Numbered(r, title)
    ensures forall k :: 0 <= k < |segs| ==> SameExceptLabel(r[k], segs[k])
  {
    Relabel(segs, title, 0)
  }

  /** Renumbering an already numbered list changes nothing. */
  lemma UpdateSegmentNumbersFixpoint(segs: seq<Entry>, title: string)
    requires Numbered(segs, title)
    ensures UpdateSegmentNumbers(segs, title) == segs
  {
    var r := UpdateSegmentNumbers(segs, title);
    forall k | 0 <= k < |segs|
      ensures r[k] == segs[k]
    {
      assert SameExceptLabel(r[k], segs[k]);
    }
  }

  /** In a numbered list no two segments share a label. */
  lemma NumberedLabelsDistinct(segs: seq<Entry>, title: string, j: nat, k: nat)
    requires Numbered(segs, title)
    requires j < |segs| && k < |segs| && j != k
    ensures segs[j].numberLabel != segs[k].numberLabel
  {
    SegmentLabelInjective(title, j, k);
  }

  /** The segment `add_segment` creates when the list has `index` entries. */
  function NewEntry(lang: Language, index: nat): Entry {
    Entry(SegmentLabel(lang.segmentTitleMain, index), "", "", "", MenuOptions(lang)[0], index)
  }

  /** `add_segment`: one blank segment at the end, numbered and with the first category. */
  function AddSegment(segs: seq<Entry>, lang: Language): (r: seq<Entry>)
    ensures |r| == |segs| + 1
    ensures Numbered(r, lang.segmentTitleMain)
    ensures forall k :: 0 <= k < |segs| ==> SameExceptLabel(r[k], segs[k])
    ensures r[|segs|].numberLabel == SegmentLabel(lang.segmentTitleMain, |segs|)
    ensures r[|segs|].lineFrom == "" && r[|segs|].lineTo == "" && r[|segs|].description == ""
    ensures r[|segs|].category == lang.menuOptionNote
    ensures r[|segs|].deleteIndex == |segs|
  {
    UpdateSegmentNumbers(segs + [NewEntry(lang, |segs|)], lang.segmentTitleMain)
  }

  /** On a numbered list, adding leaves every existing segment exactly as it was. */
  lemma AddSegmentKeepsPrefix(segs: seq<Entry>, lang: Language)
    requires Numbered(segs, lang.segmentTitleMain)
    ensures AddSegment(segs, lang)[..|segs|] == segs
  {
    var r := AddSegment(segs, lang);
    forall k | 0 <= k < |segs|
      ensures r[k] == segs[k]
    {
      assert SameExceptLabel(r[k], segs[k]);
    }
  }

  /** Adding keeps every captured delete index equal to its segment's position. */
  lemma AddSegmentKeepsIndicesCurrent(segs: seq<Entry>, lang: Language)
    requires IndicesCurrent(segs)
    ensures IndicesCurrent(AddSegment(segs, lang))
  {
    var r := AddSegment(segs, lang);
    forall k | 0 <= k < |r|
      ensures r[k].deleteIndex == k
    {
      if k < |segs| {
        assert SameExceptLabel(r[k], segs[k]);
      }
    }
  }

  /** The two segments the form starts with. */
  function InitialSegments(lang: Language): (r: seq<Entry>)
    ensures |r| == 2
    ensures Numbered(r, lang.segmentTitleMain) && IndicesCurrent(r)
    ensures forall k :: 0 <= k < 2 ==> r[k].lineFrom == "" && r[k].lineTo == "" && r[k].description == ""
    ensures forall k :: 0 <= k < 2 ==> r[k].category == lang.menuOptionNote
  {
    AddSegmentKeepsIndicesCurrent([], lang);
    AddSegmentKeepsIndicesCurrent(AddSegment([], lang), lang);
    AddSegment(AddSegment([], lang), lang)
  }

  /** Python's `list.pop(i)` for an index inside the list. */
  function PopAt(segs: seq<Entry>, i: nat): (r: seq<Entry>)
    requires i < |segs|
    ensures |r| == |segs| - 1
    ensures forall k :: 0 <= k < |r| ==> r[k] == segs[if k < i then k else k + 1]
    ensures multiset(r) + multiset{segs[i]} == multiset(segs)
  {
    assert segs == segs[..i] + [segs[i]] + segs[i + 1..];
    segs[..i] + segs[i + 1..]
  }

  /** The failure of `segments.pop(i)` for an index past the end. */
  datatype DeleteError = IndexError(index: nat, length: nat)

  /**
   `delete_segment(frame, index)`: pops `index` and renumbers. An index past
   the end makes the pop fail and leaves the list as it was.
   */
  function DeleteSegment(segs: seq<Entry>, index: nat, title: string): (r: Result<seq<Entry>, DeleteError>)
    ensures r.Failure? <==> index >= |segs|
    ensures r.Failure? ==> r.error == IndexError(index, |segs|)
    ensures r.Success? ==> |r.value| == |segs| - 1 && Numbered(r.value, title)
    ensures r.Success? ==>
              forall k :: 0 <= k < |r.value| ==> SameExceptLabel(r.value[k], segs[if k < index then k else k + 1])
  {
    if index < |segs| then Success(UpdateSegmentNumbers(PopAt(segs, index), title))
    else Failure(IndexError(index, |segs|))
  }

  /** Deleting the only segment empties the list; adding then gives one segment labelled 1. */
  lemma DeleteOnlyThenAdd(segs: seq<Entry>, lang: Language)
    requires |segs| == 1
    ensures DeleteSegment(segs, 0, lang.segmentTitleMain) == Success([])
    ensures |AddSegment([], lang)| == 1
    ensures AddSegment([], lang)[0].numberLabel == lang.segmentTitleMain + " 1"
  {
    SegmentLabelFirst(lang.segmentTitleMain);
  }

  /** What can go wrong when an as-written delete button is pressed. */
  datatype PressError =
    | PopIndexError(index: nat, length: nat) // `segments.pop` finds no entry at the captured index
    | DestroyedLabel(position: nat)          // `update_segment_numbers` configures a label whose frame is gone

  /**
   The list an as-written delete button leaves behind, the position of the
   listed entry whose frame it destroyed (if it is still listed), and the
   error it raised (if any).
   */
  datatype Pressed = Pressed(segs: seq<Entry>, dead: Option<nat>, error: Option<PressError>)

  /**
   The delete button of the segment now at position `p`, as main.py wires it:
   it destroys its own frame, then pops the index captured when the segment
   was added, then renumbers. The captured index is stale once an earlier
   segment has been deleted: the pop then fails, or removes another entry and
   the renumbering reaches the destroyed entry's label and fails there,
   leaving the labels from that position on unchanged.
   */
  function PressDeleteAsWritten(segs: seq<Entry>, p: nat, title: string): (r: Pressed)
    requires p < |segs|
    ensures r.error.None? <==> segs[p].deleteIndex == p
    ensures r.error.None? ==> r.dead.None? && r.segs == PressDelete(segs, p, title).value
    ensures r.error.Some? ==> r.dead.Some? && r.dead.value < |r.segs| && r.segs[r.dead.value] == segs[p]
    ensures |segs| <= segs[p].deleteIndex ==>
              r.error == Some(PopIndexError(segs[p].deleteIndex, |segs|)) && r.segs == segs
    ensures segs[p].deleteIndex < |segs| ==>
              |r.segs| == |segs| - 1
              && (forall k :: 0 <= k < |r.segs| ==>
                    SameExceptLabel(r.segs[k], segs[if k < segs[p].deleteIndex then k else k + 1]))
    ensures p != segs[p].deleteIndex < |segs| ==> r.error == Some(DestroyedLabel(r.dead.value))
  {
    var i := segs[p].deleteIndex;
    if |segs| <= i then Pressed(segs, Some(p), Some(PopIndexError(i, |segs|)))
    else if i == p then Pressed(UpdateSegmentNumbers(PopAt(segs, i), title), None, None)
    else
      var popped := PopAt(segs, i);
      var q := if p < i then p else p - 1;
      assert popped[q] == segs[p];
      Pressed(RenumberUntil(popped, q, title), Some(q), Some(DestroyedLabel(q)))
  }

  /**
   `update_segment_numbers` interrupted at position `q`: the labels before
   `q` are renumbered, the entry at `q` and those after it keep theirs.
   */
  function RenumberUntil(segs: seq<Entry>, q: nat, title: string): (r: seq<Entry>)
    requires q <= |segs|
    ensures |r| == |segs|
    ensures forall k :: 0 <= k < q ==> r[k] == segs[k].(numberLabel := SegmentLabel(title, k))
    ensures forall k :: q <= k < |segs| ==> r[k] == segs[k]
  {
    var front := Relabel(segs[..q], title, 0);
    assert forall k :: q <= k < |segs| ==> (front + segs[q..])[k] == segs[q..][k - q];
    front + segs[q..]
  }

  /** The delete button of the segment at position `p`, removing that segment. */
  function PressDelete(segs: seq<Entry>, p: nat, title: string): (r: Result<seq<Entry>, DeleteError>)
    requires p < |segs|
    ensures r.Success?
    ensures |r.value| == |segs| - 1 && Numbered(r.value, title)
    ensures forall k :: 0 <= k < p ==> SameExceptLabel(r.value[k], segs[k])
    ensures forall k :: p <= k < |r.value| ==> SameExceptLabel(r.value[k], segs[k + 1])
  {
    DeleteSegment(segs, p, title)
  }

  /** As long as no segment was deleted, the as-written button deletes its own segment. */
  lemma PressDeleteAsWrittenAgreesWhileCurrent(segs: seq<Entry>, p: nat, title: string)
    requires IndicesCurrent(segs) && p < |segs|
    ensures PressDeleteAsWritten(segs, p, title) == Pressed(PressDelete(segs, p, title).value, None, None)
  {
  }

  /**
   Three segments; the first is deleted. The third segment's button then
   destroys its frame and fails to pop (its captured index 2 is past the
   end), so its dead entry stays listed. The second segment's button destroys
   its own frame, pops the third segment instead, and fails renumbering its
   own dead label, which stays listed while the third segment is unlisted.
   */
  lemma {:induction false} PressDeleteAsWrittenAfterDeletion(lang: Language)
    ensures var s := AddSegment(InitialSegments(lang), lang);
            && PressDeleteAsWritten(s, 0, lang.segmentTitleMain).error.None?
            && var s1 := PressDeleteAsWritten(s, 0, lang.segmentTitleMain).segs;
            && |s1| == 2 && s1[1] == s[2].(numberLabel := s1[1].numberLabel)
            && PressDeleteAsWritten(s1, 1, lang.segmentTitleMain)
               == Pressed(s1, Some(1), Some(PopIndexError(2, 2)))
            && PressDeleteAsWritten(s1, 0, lang.segmentTitleMain)
               == Pressed([s1[0]], Some(0), Some(DestroyedLabel(0)))
            && PressDelete(s1, 0, lang.segmentTitleMain).value[0].deleteIndex == 2
  {
    var title := lang.segmentTitleMain;
    var s := AddSegment(InitialSegments(lang), lang);
    AddSegmentKeepsIndicesCurrent(InitialSegments(lang), lang);
    assert s[0].deleteIndex == 0 && s[1].deleteIndex == 1 && s[2].deleteIndex == 2;
    var s1 := PressDeleteAsWritten(s, 0, title).segs;
    assert SameExceptLabel(s1[0], s[1]) && SameExceptLabel(s1[1], s[2]);
    assert s1[0].deleteIndex == 1 && s1[1].deleteIndex == 2;
    var d := PressDeleteAsWritten(s1, 0, title);
    assert |d.segs| == 1 && d.segs[0] == s1[0];
    assert d.segs == [s1[0]];
  }

  /**
   A stale press that pops another segment leaves the list unnumbered when
   the renumbering stops before a mislabelled entry: the pressed entry moved
   down (`i < p`), or a later entry moved up past the pressed one.
   */
  lemma PressDeleteAsWrittenUnnumbered(segs: seq<Entry>, p: nat, title: string)
    requires Numbered(segs, title) && p < |segs|
    requires segs[p].deleteIndex < p || p < segs[p].deleteIndex < |segs| - 1
    ensures !Numbered(PressDeleteAsWritten(segs, p, title).segs, title)
  {
    var i := segs[p].deleteIndex;
    var r := PressDeleteAsWritten(segs, p, title).segs;
    var popped := PopAt(segs, i);
    if i < p {
      assert r[p - 1] == popped[p - 1] == segs[p];
      SegmentLabelInjective(title, p - 1, p);
      assert r[p - 1].numberLabel != SegmentLabel(title, p - 1);
    } else {
      assert r[i] == popped[i] == segs[i + 1];
      SegmentLabelInjective(title, i, i + 1);
      assert r[i].numberLabel != SegmentLabel(title, i);
    }
  }

  /** A user action on the segment list. */
  datatype Action = Add | Delete(position: nat)

  /**
   One action, deletes going through the corrected button; a delete for a
   position with no segment has no button to press.
   */
  function Apply(segs: seq<Entry>, a: Action, lang: Language): (r: seq<Entry>)
    ensures a.Add? ==> |r| == |segs| + 1 && r[|segs|].lineFrom == "" && r[|segs|].description == ""
    ensures a.Add? ==> r[|segs|].lineTo == "" && r[|segs|].category == lang.menuOptionNote
    ensures a.Add? ==> forall k :: 0 <= k < |segs| ==> SameExceptLabel(r[k], segs[k])
    ensures a.Delete? && a.position < |segs| ==>
              |r| == |segs| - 1 && forall k :: a.position <= k < |r| ==> SameExceptLabel(r[k], segs[k + 1])
    ensures a.Delete? && a.position < |segs| ==> forall k :: 0 <= k < a.position ==> SameExceptLabel(r[k], segs[k])
    ensures a.Delete? && |segs| <= a.position ==> r == segs
    ensures a.Add? || a.position < |segs| ==> Numbered(r, lang.segmentTitleMain)
  {
    match a
    case Add => AddSegment(segs, lang)
    case Delete(p) => if p < |segs| then PressDelete(segs, p, lang.segmentTitleMain).value else segs
  }

  /**
   The segment list after a session of actions with the corrected delete
   button, starting from the initial two segments.
   */
  function Run(actions: seq<Action>, lang: Language): (r: seq<Entry>)
    ensures Numbered(r, lang.segmentTitleMain)
  {
    if actions == [] then InitialSegments(lang)
    else Apply(Run(actions[..|actions| - 1], lang), actions[|actions| - 1], lang)
  }

  /** With the corrected button, the number of segments after any session counts its adds and deletes. */
  lemma {:induction false} RunNumbered(actions: seq<Action>, lang: Language)
    ensures |Run(actions, lang)| == 2 + Adds(actions) - Deletes(actions, lang)
  {
    if actions != [] {
      RunNumbered(actions[..|actions| - 1], lang);
    }
  }

  /** The number of adds in the session. */
  function Adds(actions: seq<Action>): nat {
    if actions == [] then 0
    else Adds(actions[..|actions| - 1]) + (if actions[|actions| - 1].Add? then 1 else 0)
  }

  /** The number of deletes in the session that found a segment to delete. */
  function Deletes(actions: seq<Action>, lang: Language): nat {
    if actions == [] then 0
    else
      var before := Run(actions[..|actions| - 1], lang);
      var a := actions[|actions| - 1];
      Deletes(actions[..|actions| - 1], lang) + (if a.Delete? && a.position < |before| then 1 else 0)
  }
}

=== FILE: seqs.dfy ===
/**
 Facts about sequence concatenation and slicing that the string, segment and
 layout proofs share.
 */
module Seqs {
  /** Appending to a three-part concatenation appends to its last part. */
  lemma AppendToLast<T>(a: seq<T>, m: seq<T>, b: seq<T>, c: seq<T>)
    ensures a + m + b + c == a + m + (b + c)
  {
  }

  /** A sequence is the concatenation of its three slices at `i` and `j`. */
  lemma Split3<T>(s: seq<T>, i: nat, j: nat)
    requires i <= j <= |s|
    ensures s == s[..i] + s[i..j] + s[j..]
  {
    assert s[..j] == s[..i] + s[i..j];
  }

  /** The three parts of a three-part concatenation are its slices. */
  lemma Slices3<T>(s: seq<T>, a: seq<T>, m: seq<T>, b: seq<T>)
    requires s == a + m + b
    ensures s[..|a|] == a && s[|a|..|a| + |m|] == m && s[|a| + |m|..] == b
  {
  }

  /** What follows a known prefix. */
  lemma DropPrefix<T>(p: seq<T>, s: seq<T>)
    ensures (p + s)[|p|..] == s
  {
  }

  /** A slice that lies inside the first part of a concatenation. */
  lemma SliceOfPrefix<T>(a: seq<T>, b: seq<T>, lo: nat, hi: nat)
    requires lo <= hi <= |a|
    ensures (a + b)[lo..hi] == a[lo..hi]
  {
  }

  /** `f` applied to every element, in order. */
  function Map<A, B>(f: A -> B, s: seq<A>): (r: seq<B>)
    ensures |r| == |s|
    ensures forall k :: 0 <= k < |s| ==> r[k] == f(s[k])
  {
    if s == [] then []
    else
      var rest := Map(f, s[1..]);
      assert forall k :: 1 <= k < |s| ==> rest[k - 1] == f(s[k]);
      [f(s[0])] + rest
  }
}

=== FILE: settings.dfy ===
/**
 The language part of settings.py: which languages the `lang/` directory
 offers, the path of a language's settings file, and switching the
 `"language"` entry of the settings map.
 */
module Settings {
  import opened Text

  const LangDir: string := "lang"
  const SettingsSuffix: string := "_settings.json"
  const LanguageKey: string := "language"

  /** The text before the first `_` of a file name: the language code offered for it. */
  function LanguageCode(name: string): (r: string)
    ensures '_' !in r
    ensures |r| <= |name| && r == name[..|r|]
    ensures |r| < |name| ==> name[|r|] == '_'
  {
    SplitFirst(name, '_')
  }

  /** A settings-language file name: it ends in `_settings.json`. */
  predicate IsSettingsFile(name: string) {
    EndsWith(name, SettingsSuffix)
  }

  /**
   `get_available_languages` over the directory listing `listing`: the code
   of every settings-language file, in listing order.
   */
  function AvailableLanguages(listing: seq<string>): (r: seq<string>)
    ensures |r| <= |listing|
    ensures forall c :: c in r ==> '_' !in c
    ensures forall c :: c in r ==> exists f :: f in listing && IsSettingsFile(f) && LanguageCode(f) == c
    ensures forall f :: f in listing && IsSettingsFile(f) ==> LanguageCode(f) in r
  {
    if listing == [] then []
    else
      var front, last := listing[..|listing| - 1], listing[|listing| - 1];
      assert listing == front + [last];
      AvailableLanguages(front) + (if IsSettingsFile(last) then [LanguageCode(last)] else [])
  }

  /** Listing order is kept: the codes of a split listing are the codes of its parts, in order. */
  lemma {:induction false} AvailableLanguagesAppend(a: seq<string>, b: seq<string>)
    ensures AvailableLanguages(a + b) == AvailableLanguages(a) + AvailableLanguages(b)
    decreases |b|
  {
    if b == [] {
      assert a + b == a;
    } else {
      var b', last := b[..|b| - 1], b[|b| - 1];
      assert (a + b)[..|a + b| - 1] == a + b' && (a + b)[|a + b| - 1] == last;
      AvailableLanguagesAppend(a, b');
    }
  }

  /** The file name `load_settings_language` opens for `code`. */
  function SettingsFileName(code: string): (r: string)
    ensures IsSettingsFile(r)
    ensures |code| < |r| && r[..|code|] == code && r[|code|] == '_'
  {
    code + SettingsSuffix
  }

  /** `os.path.join("lang", code + "_settings.json")`. */
  function SettingsLanguagePath(code: string): (r: string)
    ensures (|code| == 0 || code[0] != '/') ==> r == LangDir + "/" + SettingsFileName(code)
    ensures |code| > 0 && code[0] == '/' ==> r == SettingsFileName(code)
  {
    PathJoin(LangDir, SettingsFileName(code))
  }

  /** A code without `_` survives the trip to its file name and back through discovery. */
  lemma SettingsFileRoundTrip(code: string)
    requires '_' !in code
    ensures LanguageCode(SettingsFileName(code)) == code
    ensures AvailableLanguages([SettingsFileName(code)]) == [code]
  {
    var name := SettingsFileName(code);
    var r := LanguageCode(name);
    assert r == name[..|code|];
  }

  /**
   A file whose code contains `_` ("pt_BR_settings.json") is offered as the
   code before the first `_` ("pt"), whose settings file is not in the listing.
   */
  lemma UnderscoreCodeNotLoadable()
    ensures AvailableLanguages(["pt_BR_settings.json"]) == ["pt"]
    ensures SettingsFileName("pt") !in ["pt_BR_settings.json"]
  {
    var name := "pt_BR_settings.json";
    assert IsSettingsFile(name) by {
      assert name[|name| - |SettingsSuffix|..] == SettingsSuffix;
    }
    assert LanguageCode(name) == "pt" by {
      assert name[2] == '_' && name[..2] == "pt";
      assert SplitFirst(name, '_') == [name[0]] + SplitFirst(name[1..], '_');
      assert SplitFirst(name[1..], '_') == [name[1]] + SplitFirst(name[2..], '_');
    }
    assert |SettingsFileName("pt")| == 16;
  }

  /** The code of a settings-language file: its name without the `_settings.json` suffix. */
  function SettingsCode(name: string): (r: string)
    requires IsSettingsFile(name)
    ensures SettingsFileName(r) == name
  {
    var r := name[..|name| - |SettingsSuffix|];
    assert name == r + SettingsSuffix;
    r
  }

  /** Language discovery that offers exactly the codes whose settings file is listed. */
  function LoadableLanguages(listing: seq<string>): (r: seq<string>)
    ensures |r| <= |listing|
    ensures forall c :: c in r ==> SettingsFileName(c) in listing
    ensures forall f :: f in listing && IsSettingsFile(f) ==> SettingsCode(f) in r
  {
    if listing == [] then []
    else
      var front, last := listing[..|listing| - 1], listing[|listing| - 1];
      assert listing == front + [last];
      LoadableLanguages(front) + (if IsSettingsFile(last) then [SettingsCode(last)] else [])
  }

  /** Every code round-trips through its file name, underscores included. */
  lemma LoadableLanguagesRoundTrip(code: string)
    ensures LoadableLanguages([SettingsFileName(code)]) == [code]
  {
    var name := SettingsFileName(code);
    var empty: seq<string> := [];
    assert [name][..0] == empty;
    assert SettingsCode(name) == name[..|code|] == code;
  }

  /** Where the two discoveries agree: file names with a single `_`, the one before the suffix. */
  lemma {:induction false} AvailableMatchesLoadable(listing: seq<string>)
    requires forall f :: f in listing && IsSettingsFile(f) ==> '_' !in SettingsCode(f)
    ensures AvailableLanguages(listing) == LoadableLanguages(listing)
  {
    if listing != [] {
      var front, last := listing[..|listing| - 1], listing[|listing| - 1];
      assert forall f :: f in front ==> f in listing;
      AvailableMatchesLoadable(front);
      if IsSettingsFile(last) {
        SettingsFileRoundTrip(SettingsCode(last));
      }
    }
  }

  /** A value of the settings JSON object: a string, or any other JSON value as its text. */
  datatype Setting = StringSetting(s: string) | OtherSetting(json: string)

  /** `change_language`: sets `"language"` to the new code and keeps every other entry. */
  function ChangeLanguage(settings: map<string, Setting>, code: string): (r: map<string, Setting>)
    ensures r.Keys == settings.Keys + {LanguageKey}
    ensures r[LanguageKey] == StringSetting(code)
    ensures forall k :: k in settings && k != LanguageKey ==> r[k] == settings[k]
  {
    settings[LanguageKey := StringSetting(code)]
  }

  /** Only the last of two language changes matters. */
  lemma ChangeLanguageLastWins(settings: map<string, Setting>, a: string, b: string)
    ensures ChangeLanguage(ChangeLanguage(settings, a), b) == ChangeLanguage(settings, b)
  {
    var x, y := ChangeLanguage(ChangeLanguage(settings, a), b), ChangeLanguage(settings, b);
    assert x.Keys == y.Keys;
    forall k | k in x.Keys
      ensures x[k] == y[k]
    {
    }
  }
}

=== FILE: snapshot.dfy ===
/**
 The data-gathering half of `generate_pdf_from_form`: the live form is read
 into plain records (`app_data` and `segments_data` in main.py) that the
 report is then built from.
 */
module Snapshot {
  import opened Seqs
  import opened Text
  import opened Dates
  import opened Wrappers
  import opened Localization
  import opened Segments

  /** The header fields of the live form together with its segment list. */
  datatype Form = Form(fileName: string, controllerName: string, fileType: string, segments: seq<Entry>)

  /** The form as the form opens: empty entries, the first file type, the two initial segments. */
  function InitialForm(lang: Language): (r: Form)
    ensures r.fileName == "" && r.controllerName == "" && r.fileType == "Python"
    ensures |r.segments| == 2 && Numbered(r.segments, lang.segmentTitleMain)
    ensures forall k :: 0 <= k < 2 ==> r.segments[k].lineFrom == "" && r.segments[k].lineTo == ""
    ensures forall k :: 0 <= k < 2 ==> r.segments[k].description == "" && r.segments[k].category == lang.menuOptionNote
  {
    Form("", "", FileTypeOptions[0], InitialSegments(lang))
  }

  /** `app_data`: the report header, labels included. */
  datatype AppData = AppData(
    appTitle: string,
    fileNameLabel: string,
    fileName: string,
    controllerNameLabel: string,
    controllerName: string,
    currentDateLabel: string,
    currentDate: string,
    fileTypeLabel: string,
    fileType: string
  )

  /** One element of `segments_data`: a segment frozen into plain text, labels included. */
  datatype SegmentData = SegmentData(
    segmentTitleMain: string,
    lineFromLabel: string,
    lineFrom: string,
    lineToLabel: string,
    lineTo: string,
    descriptionLabel: string,
    description: string,
    menuLabel: string,
    menuOption: string
  )

  /** What Tk's `Text.get("1.0", "end")` returns: the typed text plus the widget's final newline. */
  function TextboxGet(text: string): (r: string)
    ensures |r| == |text| + 1
    ensures Strip(r) == Strip(text)
  {
    StripTrailingNewline(text);
    text + "\n"
  }

  /** Python's `a or b` on strings: `a` unless it is empty. */
  function OrElse(a: string, b: string): (r: string)
    ensures a != "" ==> r == a
    ensures a == "" ==> r == b
  {
    if a != "" then a else b
  }

  /** The header record, with the generation date rendered `YYYY-MM-DD`. */
  function GatherAppData(form: Form, lang: Language, today: Date): (r: AppData)
    requires Valid(today)
    ensures r.appTitle == lang.appTitle
    ensures r.fileNameLabel == lang.fileName && r.fileName == form.fileName
    ensures r.controllerNameLabel == lang.controllerName && r.controllerName == form.controllerName
    ensures r.currentDateLabel == lang.currentDate && ParseIso(r.currentDate) == Some(today)
    ensures r.fileTypeLabel == lang.fileType && r.fileType == form.fileType
  {
    ParseFormatIso(today);
    AppData(lang.appTitle, lang.fileName, form.fileName, lang.controllerName, form.controllerName,
            lang.currentDate, FormatIso(today), lang.fileType, form.fileType)
  }

  /**
   One segment frozen for the report: an empty "line to" falls back to
   "line from", and the description loses its surrounding whitespace.
   */
  function GatherSegment(e: Entry, lang: Language): (r: SegmentData)
    ensures r.lineFrom == e.lineFrom
    ensures e.lineTo != "" ==> r.lineTo == e.lineTo
    ensures e.lineTo == "" ==> r.lineTo == e.lineFrom
    ensures r.description == Strip(e.description) && Trimmed(r.description)
    ensures r.menuOption == e.category
    ensures r.segmentTitleMain == lang.segmentTitleMain
    ensures r.lineFromLabel == lang.lineFrom && r.lineToLabel == lang.lineTo
    ensures r.descriptionLabel == lang.description && r.menuLabel == lang.menuLabel
  {
    var lineFrom := e.lineFrom;
    SegmentData(lang.segmentTitleMain, lang.lineFrom, lineFrom, lang.lineTo, OrElse(e.lineTo, lineFrom),
                lang.description, Strip(TextboxGet(e.description)), lang.menuLabel, e.category)
  }

  /** Gathering an already gathered segment again changes nothing: the fallback and the trim are settled. */
  lemma GatherSegmentSettled(e: Entry, lang: Language)
    ensures var d := GatherSegment(e, lang);
            GatherSegment(e.(lineTo := d.lineTo, description := d.description), lang) == d
  {
    StripIdempotent(e.description);
  }

  /** `segments_data`: one record per segment, in list order. */
  function GatherSegments(segs: seq<Entry>, lang: Language): (r: seq<SegmentData>)
    ensures |r| == |segs|
    ensures forall k :: 0 <= k < |segs| ==> r[k] == GatherSegment(segs[k], lang)
  {
    Map(e => GatherSegment(e, lang), segs)
  }
}

=== FILE: text.dfy ===
/**
 Python string primitives the form relies on: `str.isspace`/`str.strip`,
 `str(n)` for a natural number, `str.endswith`, `str.split(sep)[0]` and
 POSIX `os.path.join`.
 */
module Text {
  import opened Seqs

  /** Python's `str.isspace()` for one character: the Unicode whitespace set. */
  predicate IsSpace(c: char) {
    || ('\U{0009}' <= c <= '\U{000D}')
    || ('\U{001C}' <= c <= '\U{0020}')
    || c == '\U{0085}' || c == '\U{00A0}' || c == '\U{1680}'
    || ('\U{2000}' <= c <= '\U{200A}')
    || c == '\U{2028}' || c == '\U{2029}' || c == '\U{202F}'
    || c == '\U{205F}' || c == '\U{3000}'
  }

  predicate AllSpace(s: string) {
    forall k :: 0 <= k < |s| ==> IsSpace(s[k])
  }

  /** Neither end of `s` is whitespace. */
  predicate Trimmed(s: string) {
    s == [] || (!IsSpace(s[0]) && !IsSpace(s[|s| - 1]))
  }

  /** Drops leading whitespace: the result is the suffix starting at the first non-space. */
  function StripLeft(s: string): (r: string)
    ensures |r| <= |s| && r == s[|s| - |r|..]
    ensures AllSpace(s[..|s| - |r|])
    ensures r == [] || !IsSpace(r[0])
  {
    if |s| > 0 && IsSpace(s[0]) then
      var r := StripLeft(s[1..]);
      assert r == s[|s| - |r|..] && AllSpace(s[..|s| - |r|]) by {
        StripLeftStep(s, r);
      }
      r
    else
      assert AllSpace(s[..0]) by {
        assert s[..0] == [];
      }
      s
  }

  /** A space in front of the rest: what StripLeft keeps of the rest it keeps of the whole. */
  lemma StripLeftStep(s: string, r: string)
    requires |s| > 0 && IsSpace(s[0])
    requires |r| <= |s| - 1 && r == s[1..][|s| - 1 - |r|..]
    requires AllSpace(s[1..][..|s| - 1 - |r|])
    ensures r == s[|s| - |r|..]
    ensures AllSpace(s[..|s| - |r|])
  {
    var n := |s| - |r|;
    assert s[..n] == [s[0]] + s[1..][..n - 1];
    AllSpaceAppend([s[0]], s[1..][..n - 1]);
  }

  /** Drops trailing whitespace: the result is the prefix ending at the last non-space. */
  function StripRight(s: string): (r: string)
    ensures |r| <= |s| && r == s[..|r|]
    ensures AllSpace(s[|r|..])
    ensures r == [] || !IsSpace(r[|r| - 1])
  {
    if |s| > 0 && IsSpace(s[|s| - 1]) then
      var r := StripRight(s[..|s| - 1]);
      StripRightStep(s, r);
      r
    else
      assert s[|s|..] == [];
      s
  }

  /** A space after the rest: what StripRight keeps of the rest it keeps of the whole. */
  lemma StripRightStep(s: string, r: string)
    requires |s| > 0 && IsSpace(s[|s| - 1])
    requires |r| <= |s| - 1 && r == s[..|s| - 1][..|r|]
    requires AllSpace(s[..|s| - 1][|r|..])
    ensures r == s[..|r|]
    ensures AllSpace(s[|r|..])
  {
    var front := s[..|s| - 1];
    assert s[|r|..] == front[|r|..] + [s[|s| - 1]];
    AllSpaceAppend(front[|r|..], [s[|s| - 1]]);
  }

  /** Python's `s.strip()`: `s` minus its whitespace on both ends. */
  function Strip(s: string): (r: string)
    ensures |r| <= |s| && Trimmed(r)
  {
    var t := StripLeft(s);
    var r := StripRight(t);
    assert r != [] ==> r[0] == t[0];
    r
  }

  /** What Strip removes is whitespace on either side of the result. */
  lemma StripIsTrim(s: string)
    ensures exists i, j :: 0 <= i <= j <= |s| && Strip(s) == s[i..j] && AllSpace(s[..i]) && AllSpace(s[j..])
  {
    var a, b := StripParts(s);
    var m := Strip(s);
    Slices3(s, a, m, b);
    var i, j := |a|, |a| + |m|;
    assert 0 <= i <= j <= |s| && m == s[i..j] && AllSpace(s[..i]) && AllSpace(s[j..]);
  }

  /** Cutting a whitespace prefix and then a whitespace suffix leaves a slice with whitespace around it. */
  lemma TrimSlices(s: string, t: string, r: string)
    requires |t| <= |s| && t == s[|s| - |t|..] && AllSpace(s[..|s| - |t|])
    requires |r| <= |t| && r == t[..|r|] && AllSpace(t[|r|..])
    ensures r == s[|s| - |t|..|s| - |t| + |r|]
    ensures AllSpace(s[..|s| - |t|]) && AllSpace(s[|s| - |t| + |r|..])
  {
    assert s[|s| - |t| + |r|..] == t[|r|..];
  }

  /** Whitespace in front of a text that starts with a non-space is exactly what StripLeft removes. */
  lemma {:induction false} StripLeftOfSpaces(a: string, t: string)
    requires AllSpace(a)
    requires t == [] || !IsSpace(t[0])
    ensures StripLeft(a + t) == t
    decreases |a|
  {
    if a == [] {
      assert a + t == t;
    } else {
      assert (a + t)[1..] == a[1..] + t;
      StripLeftOfSpaces(a[1..], t);
    }
  }

  /** Whitespace after a text that ends with a non-space is exactly what StripRight removes. */
  lemma {:induction false} StripRightOfSpaces(t: string, b: string)
    requires AllSpace(b)
    requires t == [] || !IsSpace(t[|t| - 1])
    ensures StripRight(t + b) == t
    decreases |b|
  {
    if b == [] {
      assert t + b == t;
    } else {
      assert (t + b)[..|t + b| - 1] == t + b[..|b| - 1];
      StripRightOfSpaces(t, b[..|b| - 1]);
    }
  }

  /** Strip is determined by the decomposition whitespace + trimmed core + whitespace. */
  lemma StripOfPadded(a: string, m: string, b: string)
    requires AllSpace(a) && AllSpace(b) && Trimmed(m)
    ensures Strip(a + m + b) == m
  {
    if m == [] {
      assert a + m + b == (a + b) + [];
      StripLeftOfSpaces(a + b, []);
    } else {
      assert a + m + b == a + (m + b);
      StripLeftOfSpaces(a, m + b);
      StripRightOfSpaces(m, b);
    }
  }

  /** Stripping twice is the same as stripping once. */
  lemma StripIdempotent(s: string)
    ensures Strip(Strip(s)) == Strip(s)
  {
    var r := Strip(s);
    assert r == [] + r + [];
    StripOfPadded([], r, []);
  }

  /** A trailing newline never survives a strip. */
  lemma StripTrailingNewline(s: string)
    ensures Strip(s + "\n") == Strip(s)
  {
    var a, b := StripParts(s);
    var m := Strip(s);
    assert AllSpace(b + "\n") by {
      assert AllSpace("\n") by {
        assert IsSpace('\n');
      }
      AllSpaceAppend(b, "\n");
    }
    assert Strip(a + m + (b + "\n")) == m by {
      StripOfPadded(a, m, b + "\n");
    }
    AppendToLast(a, m, b, "\n");
  }

  /** A leading space and the text box's newline are trimmed away. */
  lemma StripExample()
    ensures Strip(" off-by-one\n") == "off-by-one"
  {
    assert " off-by-one\n" == " " + "off-by-one" + "\n";
    StripOfPadded(" ", "off-by-one", "\n");
  }

  /** `s` is its stripped text with the removed whitespace put back on either side. */
  lemma StripParts(s: string) returns (a: string, b: string)
    ensures AllSpace(a) && AllSpace(b)
    ensures s == a + Strip(s) + b
  {
    var t := StripLeft(s);
    var r := StripRight(t);
    assert Strip(s) == r;
    var i, j := |s| - |t|, |s| - |t| + |r|;
    assert r == s[i..j] && AllSpace(s[..i]) && AllSpace(s[j..]) by {
      TrimSlices(s, t, r);
    }
    a, b := s[..i], s[j..];
    assert s == a + r + b by {
      Split3(s, i, j);
    }
  }


  /** Whitespace followed by whitespace is whitespace. */
  lemma AllSpaceAppend(x: string, y: string)
    requires AllSpace(x) && AllSpace(y)
    ensures AllSpace(x + y)
  {
    forall k | 0 <= k < |x + y|
      ensures IsSpace((x + y)[k])
    {
      if k < |x| {
        assert (x + y)[k] == x[k];
      } else {
        assert (x + y)[k] == y[k - |x|];
      }
    }
  }

  // ---------------------------------------------------------------------------
  // Decimal rendering of natural numbers, Python's `str(n)` / f"{n}".

  predicate IsDigit(c: char) {
    '0' <= c <= '9'
  }

  predicate AllDigits(s: string) {
    forall k :: 0 <= k < |s| ==> IsDigit(s[k])
  }

  function DigitChar(d: nat): (c: char)
    requires d < 10
    ensures IsDigit(c)
  {
    "0123456789"[d]
  }

  function DigitValue(c: char): nat
    requires IsDigit(c)
  {
    (c as int - '0' as int) as nat
  }

  /** The value of a string of decimal digits, read left to right. */
  function DigitsValue(s: string): nat
    requires AllDigits(s)
  {
    if s == [] then 0 else 10 * DigitsValue(s[..|s| - 1]) + DigitValue(s[|s| - 1])
  }

  /** `str(n)`: the shortest decimal rendering, without leading zeros. */
  function NatToString(n: nat): (r: string)
    ensures |r| >= 1 && AllDigits(r)
    ensures r[0] == '0' ==> n == 0
  {
    if n < 10 then [DigitChar(n)] else NatToString(n / 10) + [DigitChar(n % 10)]
  }

  /** Reading back a rendered number gives the number. */
  lemma {:induction false} NatToStringValue(n: nat)
    ensures DigitsValue(NatToString(n)) == n
  {
    if n >= 10 {
      var r := NatToString(n);
      assert r[..|r| - 1] == NatToString(n / 10);
      NatToStringValue(n / 10);
    }
  }

  /** Distinct numbers have distinct renderings. */
  lemma NatToStringInjective(m: nat, n: nat)
    ensures NatToString(m) == NatToString(n) ==> m == n
  {
    NatToStringValue(m);
    NatToStringValue(n);
  }

  /** 10^k. */
  function Pow10(k: nat): nat {
    if k == 0 then 1 else 10 * Pow10(k - 1)
  }

  /** A number below 10^k needs at most k digits. */
  lemma {:induction false} NatToStringLength(n: nat, k: nat)
    requires k >= 1 && n < Pow10(k)
    ensures |NatToString(n)| <= k
  {
    if n >= 10 {
      assert k >= 2 && Pow10(k) == 10 * Pow10(k - 1);
      assert n / 10 < Pow10(k - 1);
      assert NatToString(n) == NatToString(n / 10) + [DigitChar(n % 10)];
      NatToStringLength(n / 10, k - 1);
    }
  }

  /** k zero digits. */
  function Zeros(k: nat): (r: string)
    ensures |r| == k && AllDigits(r)
    ensures forall i :: 0 <= i < k ==> r[i] == '0'
  {
    if k == 0 then [] else "0" + Zeros(k - 1)
  }

  /** Leading zeros do not change the value of a digit string. */
  lemma {:induction false} LeadingZerosValue(z: string, s: string)
    requires forall i :: 0 <= i < |z| ==> z[i] == '0'
    requires AllDigits(s)
    ensures AllDigits(z + s) && DigitsValue(z + s) == DigitsValue(s)
    decreases |s|
  {
    if s == [] {
      LeadingZerosOnly(z);
      assert z + s == z;
    } else {
      assert (z + s)[..|z + s| - 1] == z + s[..|s| - 1];
      LeadingZerosValue(z, s[..|s| - 1]);
    }
  }

  /** A string of zeros has value 0. */
  lemma {:induction false} LeadingZerosOnly(z: string)
    requires forall i :: 0 <= i < |z| ==> z[i] == '0'
    ensures AllDigits(z) && DigitsValue(z) == 0
    decreases |z|
  {
    if z != [] {
      LeadingZerosOnly(z[..|z| - 1]);
    }
  }

  /** `n` zero-padded on the left to at least `width` digits (strftime's `%02d` style). */
  function ZeroPad(n: nat, width: nat): (r: string)
    ensures AllDigits(r)
    ensures |r| == if |NatToString(n)| < width then width else |NatToString(n)|
    ensures DigitsValue(r) == n
  {
    var digits := NatToString(n);
    var pad := if |digits| < width then Zeros(width - |digits|) else [];
    LeadingZerosValue(pad, digits);
    NatToStringValue(n);
    pad + digits
  }

  // ---------------------------------------------------------------------------
  // Other str operations.

  /** Python's `s.endswith(suffix)`. */
  predicate EndsWith(s: string, suffix: string) {
    |suffix| <= |s| && s[|s| - |suffix|..] == suffix
  }

  /** Python's `s.split(sep)[0]`: the text before the first `sep`, or all of `s`. */
  function SplitFirst(s: string, sep: char): (r: string)
    ensures |r| <= |s| && r == s[..|r|]
    ensures sep !in r
    ensures |r| < |s| ==> s[|r|] == sep
  {
    if s == [] then []
    else if s[0] == sep then []
    else [s[0]] + SplitFirst(s[1..], sep)
  }

  /** Python's `posixpath.join(a, b)` for two components. */
  function PathJoin(a: string, b: string): (r: string)
    ensures |b| > 0 && b[0] == '/' ==> r == b
    ensures (|b| == 0 || b[0] != '/') && |a| > 0 && a[|a| - 1] != '/' ==> r == a + "/" + b
    ensures (|b| == 0 || b[0] != '/') && (a == [] || a[|a| - 1] == '/') ==> r == a + b
    ensures EndsWith(r, b)
  {
    if |b| > 0 && b[0] == '/' then b
    else if a == [] || a[|a| - 1] == '/' then a + b
    else a + "/" + b
  }
}

=== FILE: wrappers.dfy ===
/** Optional values and fallible results used across the model. */
module Wrappers {

  /** A value that may be absent. */
  datatype Option<+T> = None | Some(value: T)

  /** The outcome of an operation that can fail with an error of type E. */
  datatype Result<+R, +E> = Success(value: R) | Failure(error: E)
}
